=== FILE: README.md ===
# Quiz server core in Dafny

This project models the pure logic inside the Express handlers of a quiz web
application's server:

- the **live quiz session** handlers (`/live/create`, `/live/join`,
  `/live/start`, `/live/answer`, `/live/status`) as guarded transitions over an
  immutable `Session` record, with the clock passed in as integer milliseconds;
- the **scoring loop** of `POST /submit`, dispatching on question type: strict
  equality, order-insensitive multi-select comparison through JavaScript's
  default sort, and case-folded short answers;
- the **request checks** of `POST /quizzes` and `POST /generate-quiz`, and the
  all-or-nothing **validator** (`parseGeminiResponse`) of a generated list of
  eight questions, over an already-parsed JSON value;
- the stored **document shapes** (question, quiz, live session, participant,
  answer) with their schema defaults.

Files and modules:

| file | module | contents |
|---|---|---|
| `results.dfy` | `Results` | `Option` (JavaScript `undefined` is `None`) and `Result` |
| `json.dfy` | `Json` | JSON values, truthiness, property access, `===`, object spread with cleared keys |
| `js_strings.dfy` | `JsStrings` | `String(v)` (numbers as integers below 1e21), decimal numerals, string `<`, ASCII `toLowerCase` |
| `js_sort.dfy` | `JsSort` | the default `Array.prototype.sort` as a stable sort by `String(v)` |
| `quiz_model.dfy` | `QuizModel` | the schemas as datatypes, constructors with defaults |
| `live_quiz.dfy` | `LiveQuiz` | the live session handlers, the session invariant, monotonicity over request sequences |
| `grading.dfy` | `Grading` | per-question scoring and the `/submit` handler |
| `quiz_validation.dfy` | `QuizValidation` | `/quizzes` checks, `/generate-quiz` topic check, the generated-quiz validator |

Every handler returns `Result<…, Error>`, where the error datatype names each
early `return res.status(…)` (its HTTP status is noted beside the constructor)
and each exception that ends in a 500 response. A refused request saves
nothing, so a refusal never yields a new session or quiz.

## Behaviour worth noting

The handlers behave as follows, and the model does the same:

- **No duplicate-answer rejection.** A second answer to the same question is
  appended like the first (`LiveQuiz.RepeatAnswerAppended`).
- **No advance and no finish.** Nothing moves `currentQuestion` past 0 or sets
  the status to `finished`. Every reachable session therefore has question 0
  current and is never finished (`LiveQuiz.Inv`), so only question 0 can ever
  be answered.
- **Answer check order.** The answer handler checks status, then question
  index, then membership (403), then the deadline, so a non-member gets 403
  even after the window has closed.
- **Scoring is not total.** `toLowerCase` on a non-string and `sort` on a
  non-array throw a `TypeError`, and the whole submission fails with a 500
  (`Grading.GradingFailed`). Examples: a case-insensitive short answer given
  as a number or `null`, a multi-select answer array against a stored
  correct answer that is not an array, or a multi-select array of two or more
  elements holding an object with its own `toString` member, which `String`
  cannot convert when the sort compares it.
- **The deadline is inclusive.** An answer exactly `timePerQuestion` seconds
  after the start is stored; only strictly later ones are refused.
- **The question index is compared with `===`.** The string `"0"` is not the
  current question 0.

## Model

| member | source | states |
|---|---|---|
| `QuizModel.NewQuestion` | server/models/QuizModel.js:4-20 | a question built from its required type and text has no subtype (null), no options, matches or correct answer, and is case-insensitive |
| `QuizModel.NewSession` | server/models/QuizModel.js:77-103 | a fresh session is `waiting`, has no participants, question 0 current, no start time, and the given answer window |
| `QuizModel.NewParticipant` | server/models/QuizModel.js:85-97 | a participant record carries the user id and socket id and starts with no answers |
| `LiveQuiz.FindParticipant` | server/routes/LiveQuizRoutes.js:37 | `participants.find` by user id: `None` exactly when no participant has that id, otherwise the first index holding it |
| `LiveQuiz.Create` | server/routes/LiveQuizRoutes.js:9-21 | fails with quiz-not-found exactly when the quiz id does not resolve; otherwise the caller hosts a waiting, empty session at question 0 whose window is the given value, or 30 when it is absent or 0, with no question start time; the new session satisfies the session invariant |
| `LiveQuiz.Join` | server/routes/LiveQuizRoutes.js:33-45 | not-found, then already-started whenever the status is not waiting (even for a member), then already-joined; succeeds exactly when waiting and not a member, appending one participant with no answers at the end and changing nothing else |
| `LiveQuiz.Start` | server/routes/LiveQuizRoutes.js:60-68 | not-found, then forbidden for anyone but the host (whatever the status), then already-started; succeeds exactly for the host of a waiting session, setting in-progress, question 0 and start time `now`, leaving participants, host, quiz and settings unchanged |
| `LiveQuiz.AppendAnswer` | server/routes/LiveQuizRoutes.js:96-100 | appending an answer extends one participant's answers by that answer and leaves every other participant and every other field unchanged |
| `LiveQuiz.Elapsed` | server/routes/LiveQuizRoutes.js:93 | the time since the question opened is known exactly when the session has a start time; without one JavaScript's subtraction gives `NaN`, modelled as no value |
| `LiveQuiz.Late` | server/routes/LiveQuizRoutes.js:93-94 | an answer is late when more than `timePerQuestion*1000` ms have passed since the start; with no start time the `NaN` comparison is false, so it is never late |
| `LiveQuiz.Answer` | server/routes/LiveQuizRoutes.js:84-102 | checks run in the order not-found, not-in-progress, wrong question index (compared with `===`), not a participant, time expired; time expired exactly when all earlier checks pass and more than `timePerQuestion*1000` ms have passed; succeeds exactly when the session is in progress, the index is the current question, the caller has joined and the window is open (or has no start time); success appends `{currentQuestion, answer, elapsed}` to the caller's first entry only, all else unchanged |
| `LiveQuiz.Status` | server/routes/LiveQuizRoutes.js:115-122 | not-found exactly when the session is absent; otherwise the stored session unchanged |
| `LiveQuiz.JoinPreservesInv` | server/routes/LiveQuizRoutes.js:37-43 | a successful join keeps user ids pairwise distinct and a waiting session free of answers |
| `LiveQuiz.StartPreservesInv` | server/routes/LiveQuizRoutes.js:65-67 | a successful start keeps the invariant: a start time exists once in progress, question 0 current |
| `LiveQuiz.AnswerPreservesInv` | server/routes/LiveQuizRoutes.js:86-100 | a successful answer keeps every stored answer for the current question and within `timePerQuestion` seconds |
| `LiveQuiz.ApplyPreservesInv` | server/routes/LiveQuizRoutes.js:31-122 | every handler applied to a valid session yields a valid session |
| `LiveQuiz.RunPreservesInv` | server/routes/LiveQuizRoutes.js:31-122 | any series of requests, refused ones saving nothing, keeps the invariant |
| `LiveQuiz.ReachableSessionsValid` | server/routes/LiveQuizRoutes.js:7-122 | every session reachable from a create through any requests has distinct participants, is not finished, and holds only timely answers to the current question |
| `LiveQuiz.ApplyMonotone` | server/routes/LiveQuizRoutes.js:40-100 | one successful request moves the status at most from waiting to in-progress, keeps host and settings, and only appends participants and answers |
| `LiveQuiz.RunMonotone` | server/routes/LiveQuizRoutes.js:31-122 | over any series of requests the status only moves waiting to in-progress, host and window never change, and records are never removed or rewritten |
| `LiveQuiz.DeadlineBoundary` | server/routes/LiveQuizRoutes.js:93-94 | an answer exactly at the window's end is stored; one millisecond later it is refused with time-expired |
| `LiveQuiz.SecondJoinRejected` | server/routes/LiveQuizRoutes.js:37-38 | after a user's successful join, a second join by the same user is refused with already-joined |
| `LiveQuiz.RepeatAnswerAppended` | server/routes/LiveQuizRoutes.js:96-100 | a second answer to the same question is accepted and both answers stay on record, in order |
| `JsStrings.ToJsString` | server/routes/QuizRoutes.js:101 | `String(v)` for a value whose conversion does not throw, used as the sort key here and for the generated title at line 272: `null`, `true`/`false`, the decimal numeral, the string itself, array elements joined with commas with `null` as empty, "[object Object]" for objects |
| `JsStrings.StringThrows` | server/routes/QuizRoutes.js:101 | `String(v)` throws for an object with its own `toString` member, and for an array with such a non-null element at any depth |
| `JsSort.SortThrows` | server/routes/QuizRoutes.js:101 | the default sort of two or more elements throws when some element's `String` conversion does |
| `JsSort.Insert` | server/routes/QuizRoutes.js:101 | inserting into a sorted sequence adds exactly that element and keeps it sorted by `String(v)` |
| `JsSort.Sort` | server/routes/QuizRoutes.js:101 | the default sort returns a permutation of its input ordered by `String(v)` |
| `JsSort.InsertStable` | server/routes/QuizRoutes.js:101 | inserting into a sorted sequence puts the new element after every element of the same string already there, and keeps their order |
| `JsSort.SortStable` | server/routes/QuizRoutes.js:101 | the default sort is stable: for every string, the elements with that string appear in the result in their input order |
| `JsSort.SortedUnique` | server/routes/QuizRoutes.js:101 | two sorted sequences with the same elements, told apart by their strings, are equal |
| `JsSort.SortEqualIffSameMultiset` | server/routes/QuizRoutes.js:101 | for arrays of numbers, equal after sorting exactly when they hold the same numbers with the same multiplicities |
| `JsSort.MixedTypesKeepOrder` | server/routes/QuizRoutes.js:101 | `[1, "1"]` and `["1", 1]` hold the same elements yet differ after the default sort, since both elements have the string "1" |
| `JsStrings.NatToDecimalInjective` | server/routes/QuizRoutes.js:101 | distinct non-negative numbers have distinct decimal strings |
| `JsStrings.LessTrichotomy` | server/routes/QuizRoutes.js:101 | any two strings are equal or ordered one way round by `<` |
| `JsStrings.LessTransitive` | server/routes/QuizRoutes.js:101 | string `<` is transitive |
| `JsStrings.LowerChar` | server/routes/QuizRoutes.js:109-110 | an upper-case ASCII letter becomes its lower-case partner (code point plus 32); every other character is kept |
| `JsStrings.ToLower` | server/routes/QuizRoutes.js:109-110 | lower-casing keeps the length, lower-cases each character in place and leaves no upper-case ASCII letter |
| `JsStrings.ToLowerEqualIff` | server/routes/QuizRoutes.js:109-110 | two strings lower-case to the same string exactly when they agree character by character up to ASCII case |
| `Grading.Throws` | server/routes/QuizRoutes.js:100-111 | scoring throws for a multi-select array answer whose sort throws, or whose correct answer is not an array or has a sort that throws; and for a case-insensitive short answer where the answer or the correct answer is not a string |
| `Grading.Earns` | server/routes/QuizRoutes.js:96-113 | the point is earned by `===` for single choice and true/false, by equal sorted arrays for multi-select, by `===` or lower-cased equality for short answers, and never for matching or a missing subtype |
| `Grading.Earned` | server/routes/QuizRoutes.js:89-114 | the reference count of questions whose answer earns the point; it never exceeds the number of questions |
| `Grading.EarnedExtremes` | server/routes/QuizRoutes.js:94-114 | full marks exactly when every answer earns its point, zero exactly when none does |
| `Grading.Grade` | server/routes/QuizRoutes.js:94-114 | the scoring loop fails exactly when some question's comparison throws; otherwise returns the number of earned points |
| `Grading.Submit` | server/routes/QuizRoutes.js:84-123 | quiz-not-found, then invalid-format unless answers is an array of one entry per question, then a scoring failure exactly when a comparison throws; on success the total is the number of questions, the score is at most the total, and the attempt `{caller, score, total, now}` is appended to the quiz's scores with nothing else changed |
| `Grading.MultiSelectIffSameMultiset` | server/routes/QuizRoutes.js:100-101 | a multi-select question with a numeric correct array is earned by a numeric array exactly when both hold the same multiset, and never throws |
| `Grading.UnprintableElementThrows` | server/routes/QuizRoutes.js:101 | a multi-select answer of two or more elements, one of them an object with its own `toString` member, makes scoring throw |
| `Grading.MultiSelectNeedsArray` | server/routes/QuizRoutes.js:100-101 | a non-array answer to a multi-select question earns nothing and does not throw |
| `Grading.StrictAnswersNeedPrimitives` | server/routes/QuizRoutes.js:98-105 | single-choice and true/false points need `===`, which an array or object answer never satisfies |
| `Grading.MatchingScoresNothing` | server/routes/QuizRoutes.js:96-113 | a matching question neither scores nor throws |
| `Grading.NoSubtypeScoresNothing` | server/routes/QuizRoutes.js:97-103 | a multiple-choice question whose subtype is null neither scores nor throws |
| `Grading.ShortAnswerCaseFolding` | server/routes/QuizRoutes.js:108-112 | "PARIS" earns the point for "Paris" exactly when the question is not case-sensitive |
| `Grading.ShortAnswerIgnoresCase` | server/routes/QuizRoutes.js:108-111 | a string answer to a case-insensitive short answer with a string correct answer earns the point exactly when the two agree up to ASCII case, and never throws |
| `Grading.DefaultQuestionScoresNothing` | server/routes/QuizRoutes.js:96-113 | a question holding only the schema defaults never earns a point, and throws exactly when it is a short answer, whose missing correct answer cannot be lower-cased |
| `Grading.ShortAnswerNeedsString` | server/routes/QuizRoutes.js:109 | a case-insensitive short answer that is not a string makes scoring throw |
| `QuizValidation.CheckCreateQuiz` | server/routes/QuizRoutes.js:50-56 | missing-fields exactly when the title is falsy, questions is not a non-empty array or createdBy is falsy; creator-mismatch exactly when the shape is fine and createdBy is not the caller's id string; otherwise the draft carries the given title and questions and the caller as creator |
| `QuizValidation.ValidateQuestion` | server/routes/QuizRoutes.js:236-268 | accepts exactly the acceptable questions (object, truthy text, and the per-type rules for multiple choice, true/false and short answer, all else rejected), reports the question's index on failure, and on success clears exactly the type's irrelevant members while every other member reads as before |
| `QuizValidation.MapUntilError` | server/routes/QuizRoutes.js:236-269 | a throwing `map`: succeeds exactly when every element passes, keeping each output in place; otherwise the error of the first failing element |
| `QuizValidation.ValidateAll` | server/routes/QuizRoutes.js:236-269 | all questions accepted exactly when each is acceptable; otherwise the error is that of the first unacceptable one |
| `QuizValidation.ParseGeneratedQuiz` | server/routes/QuizRoutes.js:227-281 | a quiz exists exactly when the parsed reply is an array of exactly 8 acceptable questions and the topic converts to a string (otherwise the title throws); it is titled "Generated Quiz: " plus the topic's string, owned by the caller, created at the given time, and holds each question's cleaned form |
| `QuizValidation.GenerateQuiz` | server/routes/QuizRoutes.js:17-28 | a falsy topic is refused with topic-required, and only a falsy topic is; a truthy topic whose `String` conversion throws fails while the prompt is built; any other topic gets exactly the validator's verdict on the reply |
| `QuizValidation.OneBadQuestionRejectsAll` | server/routes/QuizRoutes.js:232-279 | one unacceptable question rejects the whole reply |
| `QuizValidation.MatchingRejected` | server/routes/QuizRoutes.js:240-268 | a generated matching question is never accepted |
| `Json.LookupRemoveKeys` | server/routes/QuizRoutes.js:253 | clearing members hides exactly those keys and leaves every other member readable as before |

## Left out

- Socket.IO broadcasts after join, start and answer (server/routes/LiveQuizRoutes.js:48-49, 71-72, 105-106) are fire-and-forget network output and are not modelled. No socket ever joins a `session_<id>` room in server/index.js, so these broadcasts reach nobody.
- Database access is not modelled: `save`, `findById`, `populate`, `Log.create`, the user statistics update in `/submit` (server/routes/QuizRoutes.js:118-121), profile, leaderboard and delete-quiz routes, and server/scripts/clean-quizzes.js. A lookup becomes an `Option` argument or a map; a failed save or a malformed id that makes `findById` throw (a 500) is not modelled.
- Schema validation on save (required type, text, title and createdBy; enum checks on cast strings) and Mongoose casting of request values (for example `"45"` to 45 for `timePerQuestion`, a socket id given as a number, or casting the questions of a new quiz) are not modelled; the datatypes already restrict enumerated fields to their listed values.
- Concurrency: the handlers do unguarded read-modify-write on a session, and the model says nothing about simultaneous requests.
- Numbers are unbounded integers, whereas JavaScript numbers are doubles: integers above 2^53 are not exact there, and `String(n)` writes 1e21 and above in exponent notation (`"1e+21"`), which `JsStrings.IntToDecimal` never produces. Generated-quiz titles and the multi-select sort keys are therefore modelled only for numbers below 1e21. JavaScript's fractional numbers are not modelled either, so the validator's acceptance of an option index such as 1.5 (server/routes/QuizRoutes.js:247) is not represented. `timeTaken` is kept in integer milliseconds rather than fractional seconds; the deadline comparison against `timePerQuestion*1000` is exact for integer windows.
- The average score and weakness score (server/routes/QuizRoutes.js:120, 139) are floating-point divisions and are left out.
- The remote generation call, its prompt text, the code-fence stripping and `JSON.parse` (server/routes/QuizRoutes.js:172-230) are foreign calls; the validator takes the parsed reply, with `None` for an unparseable one.
- `JsStrings.ToLower`: folds only ASCII letters, whereas `toLowerCase` also folds non-ASCII letters, because Unicode case mapping tables are outside the model.
- `JsStrings.LowerChar`: the same ASCII-only folding for one character; `'É'` stays `'É'`.
- `JsStrings.Less`: compares characters (code points), whereas JavaScript compares UTF-16 code units; the two differ only for characters outside the Basic Multilingual Plane.
- `Grading.Earns`: treats `JSON.stringify(a) === JSON.stringify(b)` as structural equality of the parsed values, which holds only for objects with distinct keys none of which is integer-like: `JSON.stringify` writes integer-like keys first in ascending order, so `{"b":1,"0":2}` and `{"0":2,"b":1}` compare equal in JavaScript but differ in the model, whose objects keep their members in the order given.
- The in-place mutation of the stored correct answer by `correctAnswer.sort()` (server/routes/QuizRoutes.js:101) is not modelled; no later step of the handler reads it.
- `LiveQuiz.Create`: takes `timePerQuestion` as an optional integer, so "falsy" means absent or 0. The other falsy values (`null`, `false`, `""`) also give 30 through `timePerQuestion || 30` but cannot be passed through the `Option<int>` parameter; truthy non-numeric values are cast by Mongoose, which is not modelled.
- Login and registration, authentication middleware (the caller id is a plain argument), server/models/User.js, the test scripts and the whole frontend are outside the model.

=== FILE: grading.dfy ===
/**
 * `POST /submit`: scoring one attempt at a stored quiz. Each question is
 * compared with the answer at the same position according to its type; the
 * attempt is recorded on the quiz with its score and total.
 */
module Grading {
  import opened Results
  import opened Json
  import opened JsStrings
  import opened JsSort
  import opened QuizModel

  /** Why a submission is refused (HTTP status in brackets). */
  datatype GradeError =
    | QuizNotFound          // [404] the quiz id resolves to nothing
    | InvalidAnswersFormat  // [400] answers is not an array of one entry per question
    | GradingFailed         // [500] a comparison threw a TypeError part-way through

  /** A scored attempt: the response's score and total, and the quiz with the attempt recorded. */
  datatype Submission = Submission(score: nat, total: nat, quiz: Quiz)

  /** The question's stored correct answer is an array. */
  predicate CorrectIsArray(q: Question) {
    q.correctAnswer.Some? && q.correctAnswer.value.JArr?
  }

  /** The question's stored correct answer is a string. */
  predicate CorrectIsString(q: Question) {
    q.correctAnswer.Some? && q.correctAnswer.value.JStr?
  }

  /**
   * Scoring this answer throws: a multi-select array answer whose sort
   * throws, or against a correct answer that has no `sort` or whose sort
   * throws; or a case-insensitive short answer where either side has no
   * `toLowerCase`.
   */
  predicate Throws(q: Question, a: Json) {
    match q.qtype
    case MultipleChoice =>
      && q.subtype == Some(Multiple) && a.JArr?
      && (SortThrows(a.items) || !CorrectIsArray(q) || SortThrows(q.correctAnswer.value.items))
    case ShortAnswer => !q.caseSensitive && (!a.JStr? || !CorrectIsString(q))
    case TrueFalse => false
    case Matching => false
  }

  /**
   * The answer earns the question's point. Single-choice and true/false
   * answers must be strictly equal to the correct answer; a multi-select
   * answer must be an array that equals the correct array once both are put
   * through the default sort; a short answer is compared as is when
   * case-sensitive and lower-cased otherwise; other kinds earn nothing.
   */
  predicate Earns(q: Question, a: Json) {
    match q.qtype
    case MultipleChoice =>
      if q.subtype == Some(Single) then StrictEquals(Some(a), q.correctAnswer)
      else if q.subtype == Some(Multiple) then
        a.JArr? && CorrectIsArray(q) && Sort(a.items) == Sort(q.correctAnswer.value.items)
      else false
    case TrueFalse => StrictEquals(Some(a), q.correctAnswer)
    case ShortAnswer =>
      if q.caseSensitive then StrictEquals(Some(a), q.correctAnswer)
      else a.JStr? && CorrectIsString(q) && ToLower(a.s) == ToLower(q.correctAnswer.value.s)
    case Matching => false
  }

  /** For each question, whether its answer earns the point. */
  function EarnFlags(qs: seq<Question>, answers: seq<Json>): (f: seq<bool>)
    requires |answers| == |qs|
    ensures |f| == |qs|
  {
    seq(|qs|, i requires 0 <= i < |qs| => Earns(qs[i], answers[i]))
  }

  /** The number of `true` entries. */
  function CountTrue(bs: seq<bool>): (n: nat)
    ensures n <= |bs|
    decreases |bs|
  {
    if |bs| == 0 then 0 else CountTrue(bs[..|bs| - 1]) + if bs[|bs| - 1] then 1 else 0
  }

  /** All entries are `true` exactly when the count is the length, and none exactly when it is zero. */
  lemma {:induction false} CountTrueExtremes(bs: seq<bool>)
    ensures CountTrue(bs) == |bs| <==> forall i :: 0 <= i < |bs| ==> bs[i]
    ensures CountTrue(bs) == 0 <==> forall i :: 0 <= i < |bs| ==> !bs[i]
    decreases |bs|
  {
    if |bs| > 0 {
      var m := |bs| - 1;
      CountTrueExtremes(bs[..m]);
      assert forall i :: 0 <= i < m ==> bs[..m][i] == bs[i];
    }
  }

  /** The number of questions whose answer earns the point; never more than the number of questions. */
  function Earned(qs: seq<Question>, answers: seq<Json>): (n: nat)
    requires |answers| == |qs|
    ensures n <= |qs|
  {
    CountTrue(EarnFlags(qs, answers))
  }

  /** Full marks exactly when every answer earns its point, and zero exactly when none does. */
  lemma EarnedExtremes(qs: seq<Question>, answers: seq<Json>)
    requires |answers| == |qs|
    ensures Earned(qs, answers) == |qs| <==> forall i :: 0 <= i < |qs| ==> Earns(qs[i], answers[i])
    ensures Earned(qs, answers) == 0 <==> forall i :: 0 <= i < |qs| ==> !Earns(qs[i], answers[i])
  {
    var f := EarnFlags(qs, answers);
    CountTrueExtremes(f);
    assert forall i :: 0 <= i < |qs| ==> f[i] == Earns(qs[i], answers[i]);
  }

  /**
   * The `forEach` over the questions: either some comparison throws, or the
   * score is the number of earned points.
   */
  method Grade(qs: seq<Question>, answers: seq<Json>) returns (r: Result<nat, GradeError>)
    requires |answers| == |qs|
    ensures r.Err? <==> exists i :: 0 <= i < |qs| && Throws(qs[i], answers[i])
    ensures r.Err? ==> r.error == GradingFailed
    ensures r.Ok? ==> r.value == Earned(qs, answers)
  {
    var score := 0;
    var i := 0;
    while i < |qs|
      invariant 0 <= i <= |qs|
      invariant forall j :: 0 <= j < i ==> !Throws(qs[j], answers[j])
      invariant score == CountTrue(EarnFlags(qs, answers)[..i])
    {
      if Throws(qs[i], answers[i]) {
        return Err(GradingFailed);
      }
      assert EarnFlags(qs, answers)[..i + 1][..i] == EarnFlags(qs, answers)[..i];
      if Earns(qs[i], answers[i]) {
        score := score + 1;
      }
      i := i + 1;
    }
    assert EarnFlags(qs, answers)[..i] == EarnFlags(qs, answers);
    r := Ok(score);
  }

  /** The body holds an array with one entry per question. */
  predicate WellShaped(answers: Option<Json>, n: nat) {
    answers.Some? && answers.value.JArr? && |answers.value.items| == n
  }

  /**
   * The whole handler: look the quiz up, check the answers' shape, score
   * them, and record the attempt on the quiz at time `now`. The score never
   * exceeds the total, which is the number of questions.
   */
  method Submit(quizzes: map<ObjectId, Quiz>, quizId: ObjectId, caller: ObjectId, now: int, answers: Option<Json>)
    returns (r: Result<Submission, GradeError>)
    ensures quizId !in quizzes ==> r == Err(QuizNotFound)
    ensures quizId in quizzes && !WellShaped(answers, |quizzes[quizId].questions|) ==> r == Err(InvalidAnswersFormat)
    ensures quizId in quizzes && WellShaped(answers, |quizzes[quizId].questions|) ==>
              var qs := quizzes[quizId].questions;
              (r.Err? <==> exists i :: 0 <= i < |qs| && Throws(qs[i], answers.value.items[i]))
              && (r.Err? ==> r.error == GradingFailed)
    ensures r.Ok? ==> quizId in quizzes && WellShaped(answers, |quizzes[quizId].questions|)
    ensures r.Ok? ==> var z := quizzes[quizId];
              && r.value.total == |z.questions|
              && r.value.score <= r.value.total
              && r.value.score == Earned(z.questions, answers.value.items)
              && r.value.quiz == z.(userScores := z.userScores + [ScoreEntry(caller, r.value.score, r.value.total, now)])
  {
    if quizId !in quizzes {
      return Err(QuizNotFound);
    }
    var z := quizzes[quizId];
    if !WellShaped(answers, |z.questions|) {
      return Err(InvalidAnswersFormat);
    }
    var g := Grade(z.questions, answers.value.items);
    match g {
      case Err(e) =>
        r := Err(e);
      case Ok(score) =>
        var total := |z.questions|;
        r := Ok(Submission(score, total, z.(userScores := z.userScores + [ScoreEntry(caller, score, total, now)])));
    }
  }

  // ---------------------------------------------------------------------------
  // What each question type rewards
  // ---------------------------------------------------------------------------

  /**
   * A multi-select question whose correct answer is an array of numbers is
   * earned by an array of numbers exactly when the two hold the same numbers
   * the same number of times, in whatever order; scoring it never throws.
   */
  lemma MultiSelectIffSameMultiset(q: Question, u: seq<Json>)
    requires q.qtype == MultipleChoice && q.subtype == Some(Multiple)
    requires q.correctAnswer.Some? && q.correctAnswer.value.JArr? && AllNumbers(q.correctAnswer.value.items)
    requires AllNumbers(u)
    ensures !Throws(q, JArr(u))
    ensures Earns(q, JArr(u)) <==> multiset(u) == multiset(q.correctAnswer.value.items)
  {
    SortEqualIffSameMultiset(u, q.correctAnswer.value.items);
  }

  /**
   * Sorting a multi-select answer of two or more elements throws when one of
   * them is an object carrying its own `toString` member, whatever the
   * correct answer is.
   */
  lemma UnprintableElementThrows(q: Question, u: seq<Json>, k: nat)
    requires q.qtype == MultipleChoice && q.subtype == Some(Multiple)
    requires |u| >= 2 && k < |u| && u[k].JObj? && Lookup(u[k].fields, "toString").Some?
    ensures Throws(q, JArr(u))
  {
  }

  /** A multi-select question gives nothing, and throws nothing, for an answer that is not an array. */
  lemma MultiSelectNeedsArray(q: Question, a: Json)
    requires q.qtype == MultipleChoice && q.subtype == Some(Multiple) && !a.JArr?
    ensures !Earns(q, a) && !Throws(q, a)
  {
  }

  /**
   * Strict equality never holds for arrays or objects: a single-choice or
   * true/false question whose correct answer is an array is never earned,
   * even by an identical array.
   */
  lemma StrictAnswersNeedPrimitives(q: Question, a: Json)
    requires q.qtype == TrueFalse || (q.qtype == MultipleChoice && q.subtype == Some(Single))
    requires a.JArr? || a.JObj?
    ensures !Earns(q, a)
  {
  }

  /** A question of a kind the scorer does not handle (matching) neither scores nor throws. */
  lemma MatchingScoresNothing(q: Question, a: Json)
    requires q.qtype == Matching
    ensures !Earns(q, a) && !Throws(q, a)
  {
  }

  /** A multiple-choice question without a subtype neither scores nor throws. */
  lemma NoSubtypeScoresNothing(q: Question, a: Json)
    requires q.qtype == MultipleChoice && q.subtype == None
    ensures !Earns(q, a) && !Throws(q, a)
  {
  }

  /**
   * Case only matters for case-sensitive short answers: "PARIS" earns the
   * point for "Paris" when the question ignores case and not when it does not.
   */
  lemma ShortAnswerCaseFolding(q: Question)
    requires q.qtype == ShortAnswer && q.correctAnswer == Some(JStr("Paris"))
    ensures !Throws(q, JStr("PARIS"))
    ensures Earns(q, JStr("PARIS")) <==> !q.caseSensitive
  {
    if !q.caseSensitive {
      assert ToLower("PARIS") == "paris" == ToLower("Paris");
    }
  }

  /**
   * A case-insensitive short answer with a string correct answer: a string
   * answer earns the point exactly when it spells the correct answer up to
   * ASCII case, and scoring it never throws.
   */
  lemma ShortAnswerIgnoresCase(q: Question, a: string, c: string)
    requires q.qtype == ShortAnswer && !q.caseSensitive && q.correctAnswer == Some(JStr(c))
    ensures !Throws(q, JStr(a))
    ensures Earns(q, JStr(a)) <==> SameIgnoringCase(a, c)
  {
    ToLowerEqualIff(a, c);
  }

  /**
   * A question with only the schema's defaults never earns a point; it
   * throws exactly when it is a short answer, whose missing correct answer
   * has no `toLowerCase`.
   */
  lemma DefaultQuestionScoresNothing(t: QuestionType, text: string, a: Json)
    ensures !Earns(NewQuestion(t, text), a)
    ensures Throws(NewQuestion(t, text), a) <==> t == ShortAnswer
  {
  }

  /** A case-insensitive short answer throws on any answer that is not a string. */
  lemma ShortAnswerNeedsString(q: Question, a: Json)
    requires q.qtype == ShortAnswer && !q.caseSensitive && !a.JStr?
    ensures Throws(q, a)
  {
  }
}

=== FILE: js_sort.dfy ===
/**
 * `Array.prototype.sort()` without a comparator: a stable sort that orders
 * elements by comparing their `String(…)` forms with `<`. Any stable sort by
 * the same key gives the same result, so this module sorts by insertion.
 */
module JsSort {
  import opened Json
  import opened JsStrings

  /** The string the default comparator orders an element by. */
  function Key(v: Json): string {
    ToJsString(v)
  }

  /** Ordered by key: no later element has a key below an earlier one. */
  predicate SortedByKey(s: seq<Json>) {
    forall i, j :: 0 <= i < j < |s| ==> !Less(Key(s[j]), Key(s[i]))
  }

  /**
   * Inserts `x` into a sorted sequence after every element whose key is not
   * above its own, which keeps elements with equal keys in arrival order.
   */
  function Insert(x: Json, s: seq<Json>): (r: seq<Json>)
    requires SortedByKey(s)
    ensures multiset(r) == multiset(s) + multiset{x}
    ensures SortedByKey(r)
  {
    if |s| == 0 then [x]
    else if Less(Key(x), Key(s[0])) then
      (var r := [x] + s;
       assert SortedByKey(r) by {
         forall i, j | 0 <= i < j < |r|
           ensures !Less(Key(r[j]), Key(r[i]))
         {
           if i == 0 && j > 1 {
             if Less(Key(r[j]), Key(x)) {
               LessTransitive(Key(r[j]), Key(x), Key(s[0]));
             }
           } else if i == 0 {
             LessAsymmetric(Key(x), Key(s[0]));
           }
         }
       }
       r)
    else
      (var rest := Insert(x, s[1..]);
       var r := [s[0]] + rest;
       assert s == [s[0]] + s[1..];
       assert SortedByKey(r) by {
         forall j | 0 < j < |r|
           ensures !Less(Key(r[j]), Key(s[0]))
         {
           assert r[j] in multiset(rest);
           assert r[j] == x || r[j] in multiset(s[1..]);
           if r[j] != x {
             var k :| 0 <= k < |s[1..]| && s[1..][k] == r[j];
             assert s[k + 1] == r[j];
           }
         }
       }
       r)
  }

  /** The default sort: each element in turn is inserted into the sorted prefix. */
  function Sort(xs: seq<Json>): (r: seq<Json>)
    ensures multiset(r) == multiset(xs)
    ensures SortedByKey(r)
  {
    if |xs| == 0 then []
    else
      assert xs == xs[..|xs| - 1] + [xs[|xs| - 1]];
      Insert(xs[|xs| - 1], Sort(xs[..|xs| - 1]))
  }

  /** `[v]` when `v` has key `k`, otherwise nothing. */
  function Tag(v: Json, k: string): seq<Json> {
    if Key(v) == k then [v] else []
  }

  /** The elements of `s` whose key is `k`, in their order in `s`. */
  function Filter(s: seq<Json>, k: string): seq<Json>
    decreases |s|
  {
    if |s| == 0 then [] else Tag(s[0], k) + Filter(s[1..], k)
  }

  /** Filtering distributes over concatenation. */
  lemma {:induction false} FilterConcat(a: seq<Json>, b: seq<Json>, k: string)
    ensures Filter(a + b, k) == Filter(a, k) + Filter(b, k)
    decreases |a|
  {
    if |a| == 0 {
      assert a + b == b;
    } else {
      assert (a + b)[0] == a[0];
      assert (a + b)[1..] == a[1..] + b;
      FilterConcat(a[1..], b, k);
      calc {
        Filter(a + b, k);
        Tag(a[0], k) + Filter(a[1..] + b, k);
        Tag(a[0], k) + (Filter(a[1..], k) + Filter(b, k));
        (Tag(a[0], k) + Filter(a[1..], k)) + Filter(b, k);
      }
    }
  }

  /** A sequence with no element of key `k` filters to nothing. */
  lemma {:induction false} FilterNone(s: seq<Json>, k: string)
    requires forall i :: 0 <= i < |s| ==> Key(s[i]) != k
    ensures Filter(s, k) == []
    decreases |s|
  {
    if |s| > 0 {
      FilterNone(s[1..], k);
    }
  }

  /** In a sorted sequence whose first key is above `k`, no element has key `k`. */
  lemma SortedAbove(s: seq<Json>, k: string)
    requires SortedByKey(s) && |s| > 0 && Less(k, Key(s[0]))
    ensures forall i :: 0 <= i < |s| ==> Key(s[i]) != k
  {
    forall i | 0 <= i < |s|
      ensures Key(s[i]) != k
    {
      if i == 0 {
        LessIrreflexive(k);
      }
    }
  }

  /** A one-element sequence filters to its element's tag. */
  lemma FilterSingle(v: Json, k: string)
    ensures Filter([v], k) == Tag(v, k)
  {
    assert Filter([v], k) == Tag(v, k) + Filter([], k);
  }

  /** Insertion in front of a sorted sequence whose first key is above the new one's. */
  lemma InsertStableFront(x: Json, s: seq<Json>, k: string)
    requires SortedByKey(s) && |s| > 0 && Less(Key(x), Key(s[0]))
    ensures Filter([x] + s, k) == Filter(s, k) + Tag(x, k)
  {
    FilterConcat([x], s, k);
    FilterSingle(x, k);
    if Key(x) == k {
      SortedAbove(s, k);
      FilterNone(s, k);
    }
  }

  /** Past a first element whose key is not above the new one, insertion recurses into the rest. */
  lemma InsertLater(x: Json, s: seq<Json>)
    requires SortedByKey(s) && |s| > 0 && !Less(Key(x), Key(s[0]))
    ensures SortedByKey(s[1..])
    ensures Insert(x, s) == [s[0]] + Insert(x, s[1..])
  {
    SortedTail(s);
  }

  /**
   * Insertion is stable: among the elements of any one key, the inserted
   * element comes after all those already present, whose order is kept.
   */
  lemma {:induction false} InsertStable(x: Json, s: seq<Json>, k: string)
    requires SortedByKey(s)
    ensures Filter(Insert(x, s), k) == Filter(s, k) + Tag(x, k)
    decreases |s|
  {
    if |s| == 0 {
      FilterSingle(x, k);
    } else if Less(Key(x), Key(s[0])) {
      InsertStableFront(x, s, k);
    } else {
      InsertLater(x, s);
      var rest := Insert(x, s[1..]);
      InsertStable(x, s[1..], k);
      FilterConcat([s[0]], rest, k);
      FilterSingle(s[0], k);
      assert Filter(s, k) == Tag(s[0], k) + Filter(s[1..], k);
    }
  }

  /**
   * The default sort is stable: the elements sharing any one key appear in
   * the result in the order they had in the input.
   */
  lemma {:induction false} SortStable(xs: seq<Json>, k: string)
    ensures Filter(Sort(xs), k) == Filter(xs, k)
    decreases |xs|
  {
    if |xs| > 0 {
      var m := |xs| - 1;
      var init := Sort(xs[..m]);
      assert Sort(xs) == Insert(xs[m], init);
      SortStable(xs[..m], k);
      InsertStable(xs[m], init, k);
      assert xs == xs[..m] + [xs[m]];
      FilterConcat(xs[..m], [xs[m]], k);
      FilterSingle(xs[m], k);
    }
  }

  /**
   * The default sort throws: with two or more elements every element is
   * compared, and so converted with `String`, at least once.
   */
  predicate SortThrows(xs: seq<Json>) {
    |xs| >= 2 && exists i :: 0 <= i < |xs| && StringThrows(xs[i])
  }

  /** Elements of `s` and of `t` with the same key are the same element. */
  predicate KeysSeparate(s: seq<Json>, t: seq<Json>) {
    forall i, j :: 0 <= i < |s| && 0 <= j < |t| && Key(s[i]) == Key(t[j]) ==> s[i] == t[j]
  }

  /** The least key of a sorted sequence is its first element's. */
  lemma SortedHeadLeast(s: seq<Json>, x: Json)
    requires SortedByKey(s) && x in multiset(s)
    ensures !Less(Key(x), Key(s[0]))
  {
    var k :| 0 <= k < |s| && s[k] == x;
    if k == 0 {
      LessIrreflexive(Key(x));
    } else {
      assert !Less(Key(s[k]), Key(s[0]));
    }
  }

  /** Two sequences sorted by a key that separates their elements, with the same elements, are the same sequence. */
  lemma {:induction false} SortedUnique(s: seq<Json>, t: seq<Json>)
    requires SortedByKey(s) && SortedByKey(t)
    requires multiset(s) == multiset(t)
    requires KeysSeparate(s, t)
    ensures s == t
    decreases |s|
  {
    assert |s| == |multiset(s)| == |multiset(t)| == |t|;
    if |s| > 0 {
      SortedHeadLeast(t, s[0]);
      SortedHeadLeast(s, t[0]);
      LessTrichotomy(Key(s[0]), Key(t[0]));
      assert s[0] == t[0];
      var s', t' := s[1..], t[1..];
      assert s == [s[0]] + s' && t == [t[0]] + t';
      MultisetTail(s, t);
      SortedTail(s);
      SortedTail(t);
      TailsSeparate(s, t);
      SortedUnique(s', t');
    }
  }

  /** Equal first elements leave the rest of two permutations permutations of each other. */
  lemma MultisetTail<T>(s: seq<T>, t: seq<T>)
    requires multiset(s) == multiset(t) && |s| > 0 && |t| > 0 && s[0] == t[0]
    ensures multiset(s[1..]) == multiset(t[1..])
  {
    assert s == [s[0]] + s[1..] && t == [t[0]] + t[1..];
    assert multiset(s) == multiset{s[0]} + multiset(s[1..]);
    assert multiset(t) == multiset{t[0]} + multiset(t[1..]);
    assert multiset(s[1..]) == multiset(s) - multiset{s[0]};
  }

  /** Dropping the first element keeps a sequence sorted. */
  lemma SortedTail(s: seq<Json>)
    requires SortedByKey(s) && |s| > 0
    ensures SortedByKey(s[1..])
  {
    forall i, j | 0 <= i < j < |s| - 1
      ensures !Less(Key(s[1..][j]), Key(s[1..][i]))
    {
      assert s[1..][j] == s[j + 1] && s[1..][i] == s[i + 1];
    }
  }

  /** Dropping the first elements keeps the key separation. */
  lemma TailsSeparate(s: seq<Json>, t: seq<Json>)
    requires KeysSeparate(s, t) && |s| > 0 && |t| > 0
    ensures KeysSeparate(s[1..], t[1..])
  {
    var s', t' := s[1..], t[1..];
    forall i, j | 0 <= i < |s'| && 0 <= j < |t'| && Key(s'[i]) == Key(t'[j])
      ensures s'[i] == t'[j]
    {
      assert s'[i] == s[i + 1] && t'[j] == t[j + 1];
    }
  }

  /** Every element is a number. */
  predicate AllNumbers(xs: seq<Json>) {
    forall i :: 0 <= i < |xs| ==> xs[i].JNum?
  }

  /** Numbers are separated by their keys. */
  lemma NumbersKeysSeparate(s: seq<Json>, t: seq<Json>)
    requires AllNumbers(s) && AllNumbers(t)
    ensures KeysSeparate(s, t)
  {
    forall i, j | 0 <= i < |s| && 0 <= j < |t| && Key(s[i]) == Key(t[j])
      ensures s[i] == t[j]
    {
      NumberStringsInjective(s[i].n, t[j].n);
    }
  }

  /**
   * For arrays of numbers, sorting both sides makes them equal exactly when
   * they hold the same numbers with the same multiplicities, in any order.
   */
  lemma SortEqualIffSameMultiset(u: seq<Json>, c: seq<Json>)
    requires AllNumbers(u) && AllNumbers(c)
    ensures Sort(u) == Sort(c) <==> multiset(u) == multiset(c)
  {
    var su, sc := Sort(u), Sort(c);
    if multiset(u) == multiset(c) {
      assert AllNumbers(su) by {
        forall i | 0 <= i < |su| ensures su[i].JNum? {
          assert su[i] in multiset(u);
        }
      }
      assert AllNumbers(sc) by {
        forall i | 0 <= i < |sc| ensures sc[i].JNum? {
          assert sc[i] in multiset(c);
        }
      }
      NumbersKeysSeparate(su, sc);
      SortedUnique(su, sc);
    }
  }

  /**
   * With mixed element types the comparison is not order-insensitive: the
   * number 1 and the string "1" share the key "1", so a stable sort keeps
   * their original order and the two arrays below stay different.
   */
  lemma MixedTypesKeepOrder()
    ensures multiset([JNum(1), JStr("1")]) == multiset([JStr("1"), JNum(1)])
    ensures Sort([JNum(1), JStr("1")]) != Sort([JStr("1"), JNum(1)])
  {
    assert Key(JNum(1)) == "1";
    assert Sort([JNum(1)]) == [JNum(1)];
    assert [JNum(1), JStr("1")][..1] == [JNum(1)];
    assert [JStr("1"), JNum(1)][..1] == [JStr("1")];
    assert Sort([JStr("1")]) == [JStr("1")];
    assert Sort([JNum(1), JStr("1")]) == [JNum(1), JStr("1")];
    assert Sort([JStr("1"), JNum(1)]) == [JStr("1"), JNum(1)];
  }
}

=== FILE: js_strings.dfy ===
/**
 * The string conversions and comparisons JavaScript applies behind the
 * handlers' backs: `String(v)` (used by the default `Array.prototype.sort`
 * and by template literals), the `<` order on strings, and `toLowerCase`.
 */
module JsStrings {
  import opened Json

  /** The character of one decimal digit. */
  function DigitChar(d: nat): (c: char)
    requires d < 10
    ensures '0' <= c <= '9' && c as int - '0' as int == d
  {
    (('0' as int) + d) as char
  }

  /** The decimal numeral of a natural number, without leading zeros. */
  function NatToDecimal(n: nat): (s: string)
    ensures |s| >= 1
    ensures forall i :: 0 <= i < |s| ==> '0' <= s[i] <= '9'
    ensures |s| == 1 <==> n < 10
    decreases n
  {
    if n < 10 then [DigitChar(n)] else NatToDecimal(n / 10) + [DigitChar(n % 10)]
  }

  /** Distinct natural numbers have distinct numerals. */
  lemma {:induction false} NatToDecimalInjective(a: nat, b: nat)
    requires NatToDecimal(a) == NatToDecimal(b)
    ensures a == b
    decreases a
  {
    var s := NatToDecimal(a);
    if a >= 10 {
      assert b >= 10;
      var n := |s|;
      assert s[..n - 1] == NatToDecimal(a / 10) && s[..n - 1] == NatToDecimal(b / 10);
      NatToDecimalInjective(a / 10, b / 10);
      assert DigitChar(a % 10) == s[n - 1] == DigitChar(b % 10);
    } else {
      assert DigitChar(a) == s[0] == DigitChar(b);
    }
  }

  /**
   * `String(n)` for an integer: a minus sign before the numeral of a negative
   * value. JavaScript switches to exponent notation from 1e21 upward, which
   * this numeral does not.
   */
  function IntToDecimal(n: int): (s: string)
    ensures |s| >= 1
    ensures s[0] == '-' <==> n < 0
  {
    if n < 0 then "-" + NatToDecimal(-n) else NatToDecimal(n)
  }

  /** Distinct integers have distinct numerals. */
  lemma IntToDecimalInjective(a: int, b: int)
    requires IntToDecimal(a) == IntToDecimal(b)
    ensures a == b
  {
    if a < 0 {
      assert IntToDecimal(a)[1..] == NatToDecimal(-a);
      assert IntToDecimal(b)[1..] == NatToDecimal(-b);
      NatToDecimalInjective(-a, -b);
    } else {
      NatToDecimalInjective(a, b);
    }
  }

  /** The strings joined with commas, as `Array.prototype.join` does by default. */
  function JoinWithCommas(parts: seq<string>): string {
    if |parts| == 0 then ""
    else if |parts| == 1 then parts[0]
    else parts[0] + "," + JoinWithCommas(parts[1..])
  }

  /**
   * `String(v)` throws a `TypeError`. A parsed object with its own `toString`
   * member has a plain value there, not a method, so the conversion falls
   * through to `valueOf`, which hands back the object itself. An array
   * throws when one of its non-`null` elements does, at any depth, since
   * `join` converts each of them.
   */
  predicate StringThrows(v: Json)
    decreases v
  {
    match v
    case JObj(fields) => Lookup(fields, "toString").Some?
    case JArr(items) => exists i :: 0 <= i < |items| && !items[i].JNull? && StringThrows(items[i])
    case _ => false
  }

  /**
   * `String(v)` when it does not throw: arrays join their elements' strings
   * with commas, rendering `null` elements as the empty string; every other
   * object becomes "[object Object]".
   */
  function ToJsString(v: Json): string
    decreases v
  {
    match v
    case JNull => "null"
    case JBool(b) => if b then "true" else "false"
    case JNum(n) => IntToDecimal(n)
    case JStr(s) => s
    case JArr(items) =>
      JoinWithCommas(seq(|items|, i requires 0 <= i < |items| =>
        if items[i].JNull? then "" else ToJsString(items[i])))
    case JObj(_) => "[object Object]"
  }

  /** Numbers are told apart by their strings. */
  lemma NumberStringsInjective(a: int, b: int)
    requires ToJsString(JNum(a)) == ToJsString(JNum(b))
    ensures a == b
  {
    IntToDecimalInjective(a, b);
  }

  /**
   * `a < b` on strings: lexicographic order on characters, a proper prefix
   * before any extension of it.
   */
  predicate Less(a: string, b: string)
    decreases |a|
  {
    |b| > 0 && (|a| == 0 || a[0] < b[0] || (a[0] == b[0] && Less(a[1..], b[1..])))
  }

  /** No string is below itself. */
  lemma {:induction false} LessIrreflexive(a: string)
    ensures !Less(a, a)
    decreases |a|
  {
    if |a| > 0 {
      LessIrreflexive(a[1..]);
    }
  }

  /** Any two strings are equal or ordered one way round. */
  lemma {:induction false} LessTrichotomy(a: string, b: string)
    ensures a == b || Less(a, b) || Less(b, a)
    decreases |a|
  {
    if |a| > 0 && |b| > 0 && a[0] == b[0] {
      LessTrichotomy(a[1..], b[1..]);
      if a[1..] == b[1..] {
        assert a == [a[0]] + a[1..] && b == [b[0]] + b[1..];
      }
    }
  }

  /** Never ordered both ways round. */
  lemma {:induction false} LessAsymmetric(a: string, b: string)
    requires Less(a, b)
    ensures !Less(b, a)
    decreases |a|
  {
    if |a| > 0 && a[0] == b[0] {
      LessAsymmetric(a[1..], b[1..]);
    }
  }

  /** The order is transitive. */
  lemma {:induction false} LessTransitive(a: string, b: string, c: string)
    requires Less(a, b) && Less(b, c)
    ensures Less(a, c)
    decreases |a|
  {
    if |a| > 0 && a[0] == b[0] && b[0] == c[0] {
      LessTransitive(a[1..], b[1..], c[1..]);
    }
  }

  /** `c.toLowerCase()` on the ASCII letters; every other character is kept. */
  function LowerChar(c: char): (r: char)
    ensures !('A' <= r <= 'Z')
    ensures 'A' <= c <= 'Z' ==> r as int == c as int + 32
    ensures !('A' <= c <= 'Z') ==> r == c
  {
    if 'A' <= c <= 'Z' then (c as int - 'A' as int + 'a' as int) as char else c
  }

  /** `s.toLowerCase()`, character by character. */
  function ToLower(s: string): (r: string)
    ensures |r| == |s|
    ensures forall i :: 0 <= i < |s| ==> r[i] == LowerChar(s[i])
    ensures forall i :: 0 <= i < |r| ==> !('A' <= r[i] <= 'Z')
  {
    seq(|s|, i requires 0 <= i < |s| => LowerChar(s[i]))
  }

  /**
   * Two characters that are the same letter up to ASCII case: equal, or one
   * an upper-case letter and the other its lower-case partner.
   */
  predicate SameCharIgnoringCase(x: char, y: char) {
    || x == y
    || ('A' <= x <= 'Z' && y as int == x as int + 32)
    || ('A' <= y <= 'Z' && x as int == y as int + 32)
  }

  /** Two strings that agree character by character up to ASCII case. */
  predicate SameIgnoringCase(a: string, b: string) {
    |a| == |b| && forall i :: 0 <= i < |a| ==> SameCharIgnoringCase(a[i], b[i])
  }

  /** Lower-cased characters agree exactly when the characters agree up to case. */
  lemma LowerCharEqualIff(x: char, y: char)
    ensures LowerChar(x) == LowerChar(y) <==> SameCharIgnoringCase(x, y)
  {
  }

  /** Lower-cased strings are equal exactly when the strings agree up to case. */
  lemma ToLowerEqualIff(a: string, b: string)
    ensures ToLower(a) == ToLower(b) <==> SameIgnoringCase(a, b)
  {
    if |a| == |b| {
      forall i | 0 <= i < |a|
        ensures ToLower(a)[i] == ToLower(b)[i] <==> SameCharIgnoringCase(a[i], b[i])
      {
        LowerCharEqualIff(a[i], b[i]);
      }
      if SameIgnoringCase(a, b) {
        assert forall i :: 0 <= i < |a| ==> ToLower(a)[i] == ToLower(b)[i];
      }
    }
  }
}

=== FILE: json.dfy ===
/**
 * Already-parsed JSON values as the Express handlers see them in `req.body`,
 * with the JavaScript operations the handlers apply to them: truthiness,
 * property access, strict equality and object spread.
 */
module Json {
  import opened Results

  /**
   * A JSON value. Numbers are integers here (JavaScript's doubles are not
   * modelled). An object is its list of (key, value) members in source order;
   * objects produced by `JSON.parse` or `express.json()` have distinct keys.
   */
  datatype Json =
    | JNull
    | JBool(b: bool)
    | JNum(n: int)
    | JStr(s: string)
    | JArr(items: seq<Json>)
    | JObj(fields: seq<(string, Json)>)

  /** JavaScript truthiness of a possibly-`undefined` value. */
  predicate Truthy(v: Option<Json>) {
    match v
    case None => false
    case Some(JNull) => false
    case Some(JBool(b)) => b
    case Some(JNum(n)) => n != 0
    case Some(JStr(s)) => s != ""
    case Some(JArr(_)) => true
    case Some(JObj(_)) => true
  }

  /** Null, booleans, numbers and strings: the values `===` compares by value. */
  predicate IsPrimitive(v: Json) {
    v.JNull? || v.JBool? || v.JNum? || v.JStr?
  }

  /**
   * `a === b` where the two operands never share an object reference (they
   * come from different requests or from the database): `undefined` equals
   * only `undefined`, primitives compare by value, arrays and objects never
   * compare equal.
   */
  predicate StrictEquals(a: Option<Json>, b: Option<Json>) {
    (a.None? && b.None?) || (a.Some? && b.Some? && IsPrimitive(a.value) && a.value == b.value)
  }

  /** The value of the first member named `k`, or `undefined`. */
  function Lookup(fields: seq<(string, Json)>, k: string): (r: Option<Json>)
    ensures r.Some? <==> exists i :: 0 <= i < |fields| && fields[i].0 == k
    ensures r.Some? ==> exists i :: 0 <= i < |fields| && fields[i] == (k, r.value)
  {
    if |fields| == 0 then None
    else if fields[0].0 == k then Some(fields[0].1)
    else Lookup(fields[1..], k)
  }

  /**
   * Property access `v.k` on a value that is not `null`: objects look the key
   * up; arrays, strings, numbers and booleans have none of the properties the
   * handlers read, so the access yields `undefined`.
   */
  function Get(v: Json, k: string): Option<Json> {
    match v
    case JObj(fields) => Lookup(fields, k)
    case _ => None
  }

  /**
   * The members of `fields` whose key is not in `ks`: what `{ ...q, k: undefined }`
   * leaves once the object is serialised or stored, since both drop
   * `undefined` members.
   */
  function RemoveKeys(fields: seq<(string, Json)>, ks: set<string>): (r: seq<(string, Json)>)
    ensures |r| <= |fields|
    ensures forall i :: 0 <= i < |r| ==> r[i].0 !in ks
  {
    if |fields| == 0 then []
    else if fields[0].0 in ks then RemoveKeys(fields[1..], ks)
    else [fields[0]] + RemoveKeys(fields[1..], ks)
  }

  /** Removing keys hides exactly those keys and leaves every other member readable as before. */
  lemma {:induction false} LookupRemoveKeys(fields: seq<(string, Json)>, ks: set<string>, k: string)
    ensures Lookup(RemoveKeys(fields, ks), k) == if k in ks then None else Lookup(fields, k)
    decreases |fields|
  {
    if |fields| > 0 {
      LookupRemoveKeys(fields[1..], ks, k);
    }
  }
}

=== FILE: live_quiz.dfy ===
/**
 * The live quiz session handlers (create, join, start, answer, status) as
 * pure transitions. Each takes the session the database lookup returned
 * (`None` when the id resolves to nothing), the authenticated caller and, where
 * the handler reads the clock, the current time in milliseconds; it returns
 * the session as saved, or the reason the request was refused. A refused
 * request saves nothing.
 */
module LiveQuiz {
  import opened Results
  import opened Json
  import opened QuizModel

  /** Why a live-session request is refused (HTTP status in brackets). */
  datatype LiveError =
    | QuizNotFound        // [404] create: the quiz id resolves to nothing
    | SessionNotFound     // [404] the session id resolves to nothing
    | AlreadyStarted      // [400] join or start on a session that is not waiting
    | AlreadyJoined       // [400] join by a user who is already a participant
    | NotHost             // [403] start by anyone but the host
    | NotInProgress       // [400] answer on a session that is not in progress
    | NotCurrentQuestion  // [400] answer naming another question than the current one
    | NotParticipant      // [403] answer by a user who has not joined
    | TimeExpired         // [400] answer after the question's window closed

  /** The user has joined the session. */
  predicate IsParticipant(s: Session, u: ObjectId) {
    exists i :: 0 <= i < |s.participants| && s.participants[i].userId == u
  }

  /** The participant lookup by user id (`Array.prototype.find`), as the index of the first match. */
  function FindParticipant(ps: seq<Participant>, u: ObjectId): (r: Option<nat>)
    ensures r.None? <==> forall j :: 0 <= j < |ps| ==> ps[j].userId != u
    ensures r.Some? ==> r.value < |ps| && ps[r.value].userId == u
    ensures r.Some? ==> forall j :: 0 <= j < r.value ==> ps[j].userId != u
  {
    if |ps| == 0 then None
    else if ps[0].userId == u then Some(0)
    else match FindParticipant(ps[1..], u)
      case None => None
      case Some(k) => Some(k + 1)
  }

  /**
   * `POST /live/create`: the caller hosts a new session on an existing quiz.
   * A missing or zero answer window falls back to the default.
   */
  function Create(quizzes: map<ObjectId, Quiz>, caller: ObjectId, quizId: ObjectId, timePerQuestion: Option<int>)
    : (r: Result<Session, LiveError>)
    ensures r.Err? <==> quizId !in quizzes
    ensures r.Err? ==> r.error == QuizNotFound
    ensures r.Ok? ==> r.value.hostId == caller && r.value.quizId == quizId
    ensures r.Ok? ==> r.value.status == Waiting && r.value.participants == [] && r.value.currentQuestion == 0
    ensures r.Ok? ==> r.value.questionStartTime == None
    ensures r.Ok? && timePerQuestion.Some? && timePerQuestion.value != 0 ==>
              r.value.settings.timePerQuestion == timePerQuestion.value
    ensures r.Ok? && (timePerQuestion.None? || timePerQuestion.value == 0) ==>
              r.value.settings.timePerQuestion == DefaultTimePerQuestion
    ensures r.Ok? ==> Inv(r.value)
  {
    if quizId !in quizzes then Err(QuizNotFound)
    else
      var window := if timePerQuestion.Some? && timePerQuestion.value != 0 then timePerQuestion.value
                    else DefaultTimePerQuestion;
      Ok(NewSession(quizId, caller, window))
  }

  /**
   * `POST /live/join/:sessionId`: the caller joins a waiting session once.
   * The state check comes before the membership check.
   */
  function Join(found: Option<Session>, caller: ObjectId, socketId: Option<string>): (r: Result<Session, LiveError>)
    ensures found.None? ==> r == Err(SessionNotFound)
    ensures found.Some? && found.value.status != Waiting ==> r == Err(AlreadyStarted)
    ensures found.Some? && found.value.status == Waiting && IsParticipant(found.value, caller) ==>
              r == Err(AlreadyJoined)
    ensures r.Ok? <==> found.Some? && found.value.status == Waiting && !IsParticipant(found.value, caller)
    ensures r.Ok? ==> var s, s' := found.value, r.value;
              && |s'.participants| == |s.participants| + 1
              && s'.participants[..|s.participants|] == s.participants
              && s'.participants[|s.participants|] == Participant(caller, socketId, [])
              && s'.(participants := s.participants) == s
  {
    match found
    case None => Err(SessionNotFound)
    case Some(s) =>
      if s.status != Waiting then Err(AlreadyStarted)
      else if FindParticipant(s.participants, caller).Some? then Err(AlreadyJoined)
      else Ok(s.(participants := s.participants + [NewParticipant(caller, socketId)]))
  }

  /**
   * `POST /live/start/:sessionId`: the host opens question 0 at time `now`.
   * The host check comes before the state check.
   */
  function Start(found: Option<Session>, caller: ObjectId, now: int): (r: Result<Session, LiveError>)
    ensures found.None? ==> r == Err(SessionNotFound)
    ensures found.Some? && found.value.hostId != caller ==> r == Err(NotHost)
    ensures found.Some? && found.value.hostId == caller && found.value.status != Waiting ==>
              r == Err(AlreadyStarted)
    ensures r.Ok? <==> found.Some? && found.value.hostId == caller && found.value.status == Waiting
    ensures r.Ok? ==> var s, s' := found.value, r.value;
              && s'.status == InProgress && s'.currentQuestion == 0 && s'.questionStartTime == Some(now)
              && s'.participants == s.participants
              && s'.quizId == s.quizId && s'.hostId == s.hostId && s'.settings == s.settings
  {
    match found
    case None => Err(SessionNotFound)
    case Some(s) =>
      if s.hostId != caller then Err(NotHost)
      else if s.status != Waiting then Err(AlreadyStarted)
      else Ok(s.(status := InProgress, currentQuestion := 0, questionStartTime := Some(now)))
  }

  /**
   * Milliseconds since the current question opened; `None` is the `NaN` of
   * subtracting a missing start time.
   */
  function Elapsed(s: Session, now: int): (r: Option<int>)
    ensures r.Some? <==> s.questionStartTime.Some?
  {
    match s.questionStartTime
    case None => None
    case Some(t) => Some(now - t)
  }

  /**
   * The answer window has closed: strictly more than `timePerQuestion`
   * seconds have passed. A `NaN` elapsed time compares false, so it is never
   * late.
   */
  predicate Late(s: Session, now: int) {
    match Elapsed(s, now)
    case None => false
    case Some(ms) => ms > s.settings.timePerQuestion * 1000
  }

  /** The session with one answer appended to participant `k`'s answers. */
  function AppendAnswer(s: Session, k: nat, a: LiveAnswer): (s': Session)
    requires k < |s.participants|
    ensures |s'.participants| == |s.participants|
    ensures s'.participants[k].answers == s.participants[k].answers + [a]
    ensures s'.participants[k].userId == s.participants[k].userId
    ensures s'.participants[k].socketId == s.participants[k].socketId
    ensures forall j :: 0 <= j < |s.participants| && j != k ==> s'.participants[j] == s.participants[j]
    ensures s'.(participants := s.participants) == s
  {
    var p := s.participants[k];
    s.(participants := s.participants[k := p.(answers := p.answers + [a])])
  }

  /**
   * `POST /live/answer/:sessionId`: a participant answers the current
   * question. The checks run in this order and the first failure decides:
   * session in progress, index equal to the current question, caller joined,
   * window still open. A repeated answer to the same question is appended
   * like any other.
   */
  function Answer(found: Option<Session>, caller: ObjectId, now: int, questionIndex: Option<Json>, answer: Option<Json>)
    : (r: Result<Session, LiveError>)
    ensures found.None? ==> r == Err(SessionNotFound)
    ensures found.Some? && found.value.status != InProgress ==> r == Err(NotInProgress)
    ensures found.Some? && found.value.status == InProgress && questionIndex != Some(JNum(found.value.currentQuestion)) ==>
              r == Err(NotCurrentQuestion)
    ensures (found.Some? && found.value.status == InProgress && questionIndex == Some(JNum(found.value.currentQuestion))
             && !IsParticipant(found.value, caller)) ==> r == Err(NotParticipant)
    ensures r == Err(TimeExpired) <==>
              && found.Some? && found.value.status == InProgress
              && questionIndex == Some(JNum(found.value.currentQuestion))
              && IsParticipant(found.value, caller)
              && found.value.questionStartTime.Some?
              && now - found.value.questionStartTime.value > found.value.settings.timePerQuestion * 1000
    ensures r.Ok? <==>
              && found.Some? && found.value.status == InProgress
              && questionIndex == Some(JNum(found.value.currentQuestion))
              && IsParticipant(found.value, caller)
              && !Late(found.value, now)
    ensures r.Ok? ==> var s, s' := found.value, r.value;
              exists k :: 0 <= k < |s.participants| && s.participants[k].userId == caller
                && (forall j :: 0 <= j < k ==> s.participants[j].userId != caller)
                && |s'.participants| == |s.participants|
                && s'.participants[k].answers
                     == s.participants[k].answers + [LiveAnswer(s.currentQuestion, answer, Elapsed(s, now))]
                && s'.participants[k].userId == caller
                && s'.participants[k].socketId == s.participants[k].socketId
                && (forall j :: 0 <= j < |s.participants| && j != k ==> s'.participants[j] == s.participants[j])
                && s'.(participants := s.participants) == s
  {
    match found
    case None => Err(SessionNotFound)
    case Some(s) =>
      if s.status != InProgress then Err(NotInProgress)
      else if !StrictEquals(Some(JNum(s.currentQuestion)), questionIndex) then Err(NotCurrentQuestion)
      else match FindParticipant(s.participants, caller)
        case None => Err(NotParticipant)
        case Some(k) =>
          if Late(s, now) then Err(TimeExpired)
          else Ok(AppendAnswer(s, k, LiveAnswer(s.currentQuestion, answer, Elapsed(s, now))))
  }

  /** `GET /live/status/:sessionId`: the stored session, unchanged. */
  function Status(found: Option<Session>): (r: Result<Session, LiveError>)
    ensures r.Err? <==> found.None?
    ensures r.Err? ==> r.error == SessionNotFound
    ensures r.Ok? ==> r.value == found.value
  {
    match found
    case None => Err(SessionNotFound)
    case Some(s) => Ok(s)
  }

  // ---------------------------------------------------------------------------
  // Invariants of every session the handlers can produce
  // ---------------------------------------------------------------------------

  /** No user appears twice among the participants. */
  predicate DistinctUsers(ps: seq<Participant>) {
    forall i, j :: 0 <= i < j < |ps| ==> ps[i].userId != ps[j].userId
  }

  /** Every stored answer is for the current question and arrived within its window. */
  predicate AnswersTimely(s: Session) {
    forall i, k :: 0 <= i < |s.participants| && 0 <= k < |s.participants[i].answers| ==>
      var a := s.participants[i].answers[k];
      a.questionIndex == s.currentQuestion
      && a.timeTakenMs.Some? && a.timeTakenMs.value <= s.settings.timePerQuestion * 1000
  }

  /** Nobody has answered while the session waits. */
  predicate NoAnswersYet(s: Session) {
    forall i :: 0 <= i < |s.participants| ==> s.participants[i].answers == []
  }

  /**
   * What holds of every session reachable through the handlers: distinct
   * participants, never finished, question 0 current (nothing advances it),
   * a start time once in progress, no answers before the start, and only
   * timely answers to the current question.
   */
  predicate Inv(s: Session) {
    && DistinctUsers(s.participants)
    && s.status != Finished
    && s.currentQuestion == 0
    && (s.status == InProgress ==> s.questionStartTime.Some?)
    && (s.status == Waiting ==> NoAnswersYet(s))
    && AnswersTimely(s)
  }

  /** A request a handler applies to an existing session. */
  datatype Request =
    | JoinRequest(caller: ObjectId, socketId: Option<string>)
    | StartRequest(caller: ObjectId, now: int)
    | AnswerRequest(caller: ObjectId, now: int, questionIndex: Option<Json>, answer: Option<Json>)
    | StatusRequest

  /** The handler for one request, on a session that exists. */
  function Apply(s: Session, req: Request): Result<Session, LiveError> {
    match req
    case JoinRequest(u, sock) => Join(Some(s), u, sock)
    case StartRequest(u, now) => Start(Some(s), u, now)
    case AnswerRequest(u, now, qi, a) => Answer(Some(s), u, now, qi, a)
    case StatusRequest => Status(Some(s))
  }

  /** The session after a series of requests, one at a time; refused requests save nothing. */
  function Run(s: Session, reqs: seq<Request>): Session
    decreases |reqs|
  {
    if |reqs| == 0 then s
    else
      var next := match Apply(s, reqs[0]) case Ok(s') => s' case Err(_) => s;
      Run(next, reqs[1..])
  }

  /** A successful join keeps the invariant; in particular it cannot add a second entry for a user. */
  lemma JoinPreservesInv(s: Session, u: ObjectId, sock: Option<string>)
    requires Inv(s) && Join(Some(s), u, sock).Ok?
    ensures Inv(Join(Some(s), u, sock).value)
  {
    var s' := Join(Some(s), u, sock).value;
    var n := |s.participants|;
    assert forall i :: 0 <= i < n ==> s'.participants[i] == s.participants[i];
    assert DistinctUsers(s'.participants) by {
      forall i, j | 0 <= i < j < |s'.participants|
        ensures s'.participants[i].userId != s'.participants[j].userId
      {
        if j == n {
          assert s.participants[i].userId != u;
        }
      }
    }
    assert NoAnswersYet(s') by {
      forall i | 0 <= i < |s'.participants|
        ensures s'.participants[i].answers == []
      {
        if i < n { assert s'.participants[i] == s.participants[i]; }
      }
    }
  }

  /** A successful start keeps the invariant. */
  lemma StartPreservesInv(s: Session, u: ObjectId, now: int)
    requires Inv(s) && Start(Some(s), u, now).Ok?
    ensures Inv(Start(Some(s), u, now).value)
  {
  }

  /** A successful answer keeps the invariant: the stored answer is on time and for the current question. */
  lemma AnswerPreservesInv(s: Session, u: ObjectId, now: int, qi: Option<Json>, a: Option<Json>)
    requires Inv(s) && Answer(Some(s), u, now, qi, a).Ok?
    ensures Inv(Answer(Some(s), u, now, qi, a).value)
  {
    var s' := Answer(Some(s), u, now, qi, a).value;
    var k := FindParticipant(s.participants, u).value;
    var ans := LiveAnswer(s.currentQuestion, a, Elapsed(s, now));
    assert ans.timeTakenMs.Some? && ans.timeTakenMs.value <= s.settings.timePerQuestion * 1000;
    assert s' == AppendAnswer(s, k, ans);
    assert forall i :: 0 <= i < |s.participants| ==> s'.participants[i].userId == s.participants[i].userId;
    assert AnswersTimely(s') by {
      forall i, m | 0 <= i < |s'.participants| && 0 <= m < |s'.participants[i].answers|
        ensures s'.participants[i].answers[m].questionIndex == s'.currentQuestion
        ensures s'.participants[i].answers[m].timeTakenMs.Some?
        ensures s'.participants[i].answers[m].timeTakenMs.value <= s'.settings.timePerQuestion * 1000
      {
        if i == k && m == |s.participants[k].answers| {
          assert s'.participants[i].answers[m] == ans;
        } else {
          assert s'.participants[i].answers[m] == s.participants[i].answers[m];
        }
      }
    }
  }

  /** Every handler keeps the invariant. */
  lemma ApplyPreservesInv(s: Session, req: Request)
    requires Inv(s) && Apply(s, req).Ok?
    ensures Inv(Apply(s, req).value)
  {
    match req
    case JoinRequest(u, sock) => JoinPreservesInv(s, u, sock);
    case StartRequest(u, now) => StartPreservesInv(s, u, now);
    case AnswerRequest(u, now, qi, a) => AnswerPreservesInv(s, u, now, qi, a);
    case StatusRequest =>
  }

  /** Every session reachable from a valid one through any series of requests is valid. */
  lemma {:induction false} RunPreservesInv(s: Session, reqs: seq<Request>)
    requires Inv(s)
    ensures Inv(Run(s, reqs))
    decreases |reqs|
  {
    if |reqs| > 0 {
      if Apply(s, reqs[0]).Ok? {
        ApplyPreservesInv(s, reqs[0]);
        RunPreservesInv(Apply(s, reqs[0]).value, reqs[1..]);
      } else {
        RunPreservesInv(s, reqs[1..]);
      }
    }
  }

  /** Every session a create produces, and every session requests make of it, keeps the invariant. */
  lemma ReachableSessionsValid(quizzes: map<ObjectId, Quiz>, host: ObjectId, quizId: ObjectId, window: Option<int>, reqs: seq<Request>)
    requires Create(quizzes, host, quizId, window).Ok?
    ensures Inv(Run(Create(quizzes, host, quizId, window).value, reqs))
  {
    RunPreservesInv(Create(quizzes, host, quizId, window).value, reqs);
  }

  // ---------------------------------------------------------------------------
  // How sessions evolve
  // ---------------------------------------------------------------------------

  /** The only status moves: staying put, or waiting to in progress. */
  predicate StatusStep(a: Status, b: Status) {
    a == b || (a == Waiting && b == InProgress)
  }

  /**
   * `s'` extends `s`: earlier participants keep their place, identity and
   * socket, and their answers only grow at the end.
   */
  predicate Extends(s: Session, s': Session) {
    && |s.participants| <= |s'.participants|
    && forall i :: 0 <= i < |s.participants| ==>
         && s'.participants[i].userId == s.participants[i].userId
         && s'.participants[i].socketId == s.participants[i].socketId
         && s.participants[i].answers <= s'.participants[i].answers
  }

  /** One successful request moves the status forward at most one step and only appends records. */
  lemma ApplyMonotone(s: Session, req: Request)
    requires Apply(s, req).Ok?
    ensures StatusStep(s.status, Apply(s, req).value.status)
    ensures Extends(s, Apply(s, req).value)
    ensures Apply(s, req).value.settings == s.settings && Apply(s, req).value.hostId == s.hostId
  {
    var s' := Apply(s, req).value;
    match req
    case JoinRequest(u, sock) =>
      assert forall i :: 0 <= i < |s.participants| ==> s'.participants[i] == s.participants[i];
    case StartRequest(u, now) =>
    case AnswerRequest(u, now, qi, a) =>
      var k := FindParticipant(s.participants, u).value;
      assert forall i :: 0 <= i < |s.participants| && i != k ==> s'.participants[i] == s.participants[i];
      assert s.participants[k].answers <= s'.participants[k].answers;
    case StatusRequest =>
  }

  /**
   * Over any series of requests the status only moves from waiting to in
   * progress, never back and never to finished; the host and the answer
   * window never change; and participants and answers are only ever
   * appended, never removed or rewritten.
   */
  lemma {:induction false} RunMonotone(s: Session, reqs: seq<Request>)
    ensures StatusStep(s.status, Run(s, reqs).status)
    ensures Extends(s, Run(s, reqs))
    ensures Run(s, reqs).settings == s.settings && Run(s, reqs).hostId == s.hostId
    decreases |reqs|
  {
    if |reqs| > 0 {
      var next := match Apply(s, reqs[0]) case Ok(s') => s' case Err(_) => s;
      if Apply(s, reqs[0]).Ok? {
        ApplyMonotone(s, reqs[0]);
      }
      RunMonotone(next, reqs[1..]);
      var last := Run(next, reqs[1..]);
      assert Run(s, reqs) == last;
      forall i | 0 <= i < |s.participants|
        ensures s.participants[i].answers <= last.participants[i].answers
      {
        assert s.participants[i].answers <= next.participants[i].answers;
      }
    }
  }

  // ---------------------------------------------------------------------------
  // Boundary cases the handlers decide
  // ---------------------------------------------------------------------------

  /**
   * The answer window is closed on the right: an answer exactly
   * `timePerQuestion` seconds after the start is stored, one millisecond
   * later it is refused.
   */
  lemma DeadlineBoundary(s: Session, u: ObjectId, a: Option<Json>)
    requires s.status == InProgress && s.questionStartTime.Some? && IsParticipant(s, u)
    ensures var limit := s.questionStartTime.value + s.settings.timePerQuestion * 1000;
      && Answer(Some(s), u, limit, Some(JNum(s.currentQuestion)), a).Ok?
      && Answer(Some(s), u, limit + 1, Some(JNum(s.currentQuestion)), a) == Err(TimeExpired)
  {
  }

  /** Of two joins by the same user, the second is refused: a user joins at most once. */
  lemma SecondJoinRejected(s: Session, u: ObjectId, sock1: Option<string>, sock2: Option<string>)
    requires Join(Some(s), u, sock1).Ok?
    ensures Join(Some(Join(Some(s), u, sock1).value), u, sock2) == Err(AlreadyJoined)
  {
    var s1 := Join(Some(s), u, sock1).value;
    assert s1.participants[|s.participants|].userId == u;
  }

  /**
   * A second answer to the same question is not refused: it is appended
   * after the first, and both stay on record.
   */
  lemma {:induction false} RepeatAnswerAppended(s: Session, u: ObjectId, now: int, a1: Option<Json>, a2: Option<Json>)
    requires Inv(s)
    requires Answer(Some(s), u, now, Some(JNum(s.currentQuestion)), a1).Ok?
    ensures var s1 := Answer(Some(s), u, now, Some(JNum(s.currentQuestion)), a1).value;
      var s2 := Answer(Some(s1), u, now, Some(JNum(s.currentQuestion)), a2);
      && s2.Ok?
      && exists k :: 0 <= k < |s.participants| && s.participants[k].userId == u
           && s2.value.participants[k].answers
                == s.participants[k].answers
                   + [LiveAnswer(0, a1, Elapsed(s, now)), LiveAnswer(0, a2, Elapsed(s, now))]
  {
    var qi := Some(JNum(s.currentQuestion));
    var s1 := Answer(Some(s), u, now, qi, a1).value;
    var k := FindParticipant(s.participants, u).value;
    assert s1 == AppendAnswer(s, k, LiveAnswer(0, a1, Elapsed(s, now)));
    assert FindParticipant(s1.participants, u) == Some(k) by {
      assert forall j :: 0 <= j < |s.participants| ==> s1.participants[j].userId == s.participants[j].userId;
    }
    var s2 := Answer(Some(s1), u, now, qi, a2);
    assert s2 == Ok(AppendAnswer(s1, k, LiveAnswer(0, a2, Elapsed(s1, now))));
  }
}

=== FILE: quiz_model.dfy ===
/**
 * The document shapes the server stores: questions and quizzes, and the live
 * quiz session with its participants and their timed answers. Enumerated
 * string fields become datatypes, so a stored value is always one of the
 * schema's listed values.
 */
module QuizModel {
  import opened Results
  import opened Json

  /** The hex string of a database object id (a user, quiz or session). */
  type ObjectId = string

  /** The four question kinds the schema accepts. */
  datatype QuestionType = MultipleChoice | TrueFalse | Matching | ShortAnswer

  /** A multiple-choice question's flavour; the schema's third value, `null`, is `None`. */
  datatype Subtype = Single | Multiple

  /** One row of a matching question. */
  datatype MatchPair = MatchPair(left: Option<string>, right: Option<string>)

  /**
   * A stored question. `correctAnswer` is schema-less (any JSON value, or
   * absent); its expected shape depends on the question type.
   */
  datatype Question = Question(
    qtype: QuestionType,
    subtype: Option<Subtype>,
    text: string,
    options: seq<string>,
    matches: seq<MatchPair>,
    correctAnswer: Option<Json>,
    caseSensitive: bool)

  /** One recorded attempt at a quiz. Times are milliseconds since the epoch. */
  datatype ScoreEntry = ScoreEntry(userId: ObjectId, score: int, total: int, timestamp: int)

  /** A stored quiz. */
  datatype Quiz = Quiz(
    title: string,
    questions: seq<Question>,
    createdBy: ObjectId,
    createdAt: int,
    userScores: seq<ScoreEntry>)

  /**
   * A question built from its two required fields, every other field taking
   * its schema default: no subtype, no options or matches, no correct answer,
   * and case-insensitive comparison.
   */
  function NewQuestion(qtype: QuestionType, text: string): (q: Question)
    ensures q.qtype == qtype && q.text == text
    ensures q.subtype == None && !q.caseSensitive
    ensures q.options == [] && q.matches == [] && q.correctAnswer == None
  {
    Question(qtype, None, text, [], [], None, false)
  }

  /** The lifecycle states of a live session. */
  datatype Status = Waiting | InProgress | Finished

  /**
   * One answer given during a live session. `timeTakenMs` is the time since
   * the question opened, in milliseconds; `None` stands for the `NaN` that
   * arises when the session has no question start time.
   */
  datatype LiveAnswer = LiveAnswer(questionIndex: int, answer: Option<Json>, timeTakenMs: Option<int>)

  /** A joined user, the socket they gave, and their answers in arrival order. */
  datatype Participant = Participant(userId: ObjectId, socketId: Option<string>, answers: seq<LiveAnswer>)

  /** Per-session settings; the answer window is in whole seconds. */
  datatype Settings = Settings(timePerQuestion: int)

  /** A live quiz session. `questionStartTime` is in milliseconds since the epoch. */
  datatype Session = Session(
    quizId: ObjectId,
    hostId: ObjectId,
    status: Status,
    participants: seq<Participant>,
    currentQuestion: int,
    questionStartTime: Option<int>,
    settings: Settings)

  /** The answer window a session gets when none is given. */
  const DefaultTimePerQuestion: int := 30

  /**
   * A session built from its two required references and its answer window,
   * every other field taking its schema default.
   */
  function NewSession(quizId: ObjectId, hostId: ObjectId, timePerQuestion: int): (s: Session)
    ensures s.quizId == quizId && s.hostId == hostId
    ensures s.status == Waiting && s.participants == []
    ensures s.currentQuestion == 0 && s.questionStartTime == None
    ensures s.settings.timePerQuestion == timePerQuestion
  {
    Session(quizId, hostId, Waiting, [], 0, None, Settings(timePerQuestion))
  }

  /** A participant as a join records them: no answers yet. */
  function NewParticipant(userId: ObjectId, socketId: Option<string>): (p: Participant)
    ensures p.userId == userId && p.socketId == socketId && p.answers == []
  {
    Participant(userId, socketId, [])
  }
}

=== FILE: quiz_validation.dfy ===
/**
 * The request checks of quiz creation and the validator that turns a
 * generated list of questions into a quiz. Generation itself (the prompt, the
 * remote model, the fence stripping and `JSON.parse`) is outside: the
 * validator starts from the parsed reply.
 */
module QuizValidation {
  import opened Results
  import opened Json
  import opened JsStrings
  import opened QuizModel

  // ---------------------------------------------------------------------------
  // POST /quizzes
  // ---------------------------------------------------------------------------

  /** Why a quiz creation request is refused (HTTP status in brackets). */
  datatype CreateError =
    | MissingFields    // [400] title, questions or createdBy missing or empty
    | CreatorMismatch  // [403] createdBy names someone other than the caller

  /** What a creation request hands on to be stored. */
  datatype QuizDraft = QuizDraft(title: Json, questions: seq<Json>, createdBy: ObjectId)

  /** The questions field is an array with at least one entry. */
  predicate NonEmptyArray(v: Option<Json>) {
    v.Some? && v.value.JArr? && |v.value.items| > 0
  }

  /**
   * The checks of `POST /quizzes`, in order: every required field present and
   * non-empty, then the creator being the caller. The shape check wins when
   * both fail.
   */
  function CheckCreateQuiz(title: Option<Json>, questions: Option<Json>, createdBy: Option<Json>, caller: ObjectId)
    : (r: Result<QuizDraft, CreateError>)
    ensures r == Err(MissingFields) <==> !Truthy(title) || !NonEmptyArray(questions) || !Truthy(createdBy)
    ensures r == Err(CreatorMismatch) <==>
              Truthy(title) && NonEmptyArray(questions) && Truthy(createdBy) && createdBy != Some(JStr(caller))
    ensures r.Ok? ==> r.value == QuizDraft(title.value, questions.value.items, caller)
  {
    if !Truthy(title) || !NonEmptyArray(questions) || !Truthy(createdBy) then Err(MissingFields)
    else if !StrictEquals(createdBy, Some(JStr(caller))) then Err(CreatorMismatch)
    else Ok(QuizDraft(title.value, questions.value.items, caller))
  }

  // ---------------------------------------------------------------------------
  // POST /generate-quiz and the validator of the generated questions
  // ---------------------------------------------------------------------------

  /**
   * Why quiz generation fails: a missing topic [400]; otherwise [500] with the
   * index of the first offending question where there is one, or a topic
   * that `String` cannot convert when the prompt or the title is built.
   */
  datatype GenError =
    | TopicRequired
    | Unparseable
    | NotEightQuestions
    | NullQuestion(index: nat)
    | MissingTypeOrText(index: nat)
    | BadSubtype(index: nat)
    | BadOptions(index: nat)
    | BadSingleAnswer(index: nat)
    | BadMultipleAnswer(index: nat)
    | BadTrueFalseAnswer(index: nat)
    | BadShortAnswer(index: nat)
    | UnknownType(index: nat)
    | TopicUnprintable

  /** The number of questions a generated quiz must have. */
  const GeneratedQuestionCount: nat := 8

  /** A quiz built from a generated reply, ready to store. */
  datatype GeneratedQuiz = GeneratedQuiz(title: string, questions: seq<Json>, createdBy: ObjectId, createdAt: int)

  /** An array of exactly four strings. */
  predicate FourStrings(v: Option<Json>) {
    v.Some? && v.value.JArr? && |v.value.items| == 4
    && forall k :: 0 <= k < |v.value.items| ==> v.value.items[k].JStr?
  }

  /** A number from 0 to 3: the position of one of the four options. */
  predicate OptionIndex(v: Json) {
    v.JNum? && 0 <= v.n <= 3
  }

  /** An array of option positions, possibly empty. */
  predicate OptionIndexArray(v: Option<Json>) {
    v.Some? && v.value.JArr? && forall k :: 0 <= k < |v.value.items| ==> OptionIndex(v.value.items[k])
  }

  /** The members an accepted question of each kind loses. */
  function ClearedKeys(t: Option<Json>): set<string> {
    if t == Some(JStr("multiple_choice")) then {"caseSensitive", "matches"}
    else if t == Some(JStr("true_false")) then {"options", "subtype", "matches", "caseSensitive"}
    else {"options", "subtype", "matches"}
  }

  /**
   * The per-question rules, stated all at once: an object with a truthy text
   * and one of three kinds, each with its own requirements. Matching
   * questions and unknown kinds are not acceptable.
   */
  predicate Acceptable(q: Json) {
    var t := Get(q, "type");
    var answer := Get(q, "correctAnswer");
    && q.JObj?
    && Truthy(Get(q, "text"))
    && (|| (&& t == Some(JStr("multiple_choice"))
            && FourStrings(Get(q, "options"))
            && (|| (Get(q, "subtype") == Some(JStr("single")) && answer.Some? && OptionIndex(answer.value))
                || (Get(q, "subtype") == Some(JStr("multiple")) && OptionIndexArray(answer))))
        || (t == Some(JStr("true_false")) && answer.Some? && answer.value.JBool?)
        || (&& t == Some(JStr("short_answer"))
            && answer.Some? && answer.value.JStr?
            && Get(q, "caseSensitive").Some?))
  }

  /** The position an error reports, for the errors about one question. */
  predicate ReportsIndex(e: GenError, i: nat) {
    match e
    case NullQuestion(j) => j == i
    case MissingTypeOrText(j) => j == i
    case BadSubtype(j) => j == i
    case BadOptions(j) => j == i
    case BadSingleAnswer(j) => j == i
    case BadMultipleAnswer(j) => j == i
    case BadTrueFalseAnswer(j) => j == i
    case BadShortAnswer(j) => j == i
    case UnknownType(j) => j == i
    case _ => false
  }

  /**
   * The per-question callback of the validator's `map`: the checks for question `i`
   * in the order they run, the first failure deciding the error. An accepted
   * question keeps all its members except the ones its kind clears.
   */
  function ValidateQuestion(q: Json, i: nat): (r: Result<Json, GenError>)
    ensures r.Ok? <==> Acceptable(q)
    ensures r.Err? ==> ReportsIndex(r.error, i)
    ensures r.Ok? ==> r.value.JObj?
    ensures r.Ok? ==> forall k :: Get(r.value, k) == (if k in ClearedKeys(Get(q, "type")) then None else Get(q, k))
  {
    if q.JNull? then Err(NullQuestion(i))
    else if !Truthy(Get(q, "type")) || !Truthy(Get(q, "text")) then Err(MissingTypeOrText(i))
    else
      var t := Get(q, "type");
      var subtype := Get(q, "subtype");
      var answer := Get(q, "correctAnswer");
      var cleared := JObj(RemoveKeys(q.fields, ClearedKeys(t)));
      assert forall k :: Get(cleared, k) == if k in ClearedKeys(t) then None else Get(q, k) by {
        forall k ensures Get(cleared, k) == if k in ClearedKeys(t) then None else Get(q, k) {
          LookupRemoveKeys(q.fields, ClearedKeys(t), k);
        }
      }
      if t == Some(JStr("multiple_choice")) then
        if !Truthy(subtype) || !(subtype == Some(JStr("single")) || subtype == Some(JStr("multiple"))) then
          Err(BadSubtype(i))
        else if !FourStrings(Get(q, "options")) then Err(BadOptions(i))
        else if subtype == Some(JStr("single")) && !(answer.Some? && OptionIndex(answer.value)) then
          Err(BadSingleAnswer(i))
        else if subtype == Some(JStr("multiple")) && !OptionIndexArray(answer) then
          Err(BadMultipleAnswer(i))
        else Ok(cleared)
      else if t == Some(JStr("true_false")) then
        if !(answer.Some? && answer.value.JBool?) then Err(BadTrueFalseAnswer(i))
        else Ok(cleared)
      else if t == Some(JStr("short_answer")) then
        if !(answer.Some? && answer.value.JStr?) || Get(q, "caseSensitive").None? then Err(BadShortAnswer(i))
        else Ok(cleared)
      else Err(UnknownType(i))
  }

  /** The first `n` elements all pass the check `f`. */
  predicate PrefixPasses<A, B, E>(xs: seq<A>, f: (A, nat) -> Result<B, E>, n: nat)
    requires n <= |xs|
  {
    forall j :: 0 <= j < n ==> f(xs[j], j).Ok?
  }

  /**
   * `xs.map((x, i) => f(x, i))` where `f` may throw: either every element
   * passes and the result holds each one's output in place, or the error is
   * that of the first element that fails.
   */
  function MapUntilError<A, B, E>(xs: seq<A>, f: (A, nat) -> Result<B, E>): (r: Result<seq<B>, E>)
    ensures r.Ok? <==> PrefixPasses(xs, f, |xs|)
    ensures r.Ok? ==> |r.value| == |xs|
    ensures r.Ok? ==> forall i :: 0 <= i < |xs| ==> Ok(r.value[i]) == f(xs[i], i)
    ensures r.Err? ==> (exists i :: 0 <= i < |xs| && PrefixPasses(xs, f, i) && Err(r.error) == f(xs[i], i))
    decreases |xs|
  {
    if |xs| == 0 then Ok([])
    else
      var m := |xs| - 1;
      var prefix := xs[..m];
      assert forall j :: 0 <= j < m ==> prefix[j] == xs[j];
      assert forall n :: 0 <= n <= m ==> (PrefixPasses(prefix, f, n) <==> PrefixPasses(xs, f, n));
      match MapUntilError(prefix, f)
      case Err(e) => Err(e)
      case Ok(done) =>
        match f(xs[m], m)
        case Err(e) => Err(e)
        case Ok(y) => Ok(done + [y])
  }

  /**
   * All questions through the validator, front to back. Either every one is
   * accepted and the result holds each one's cleaned form in place, or the
   * error is that of the first rejected one.
   */
  function ValidateAll(qs: seq<Json>): (r: Result<seq<Json>, GenError>)
    ensures r.Ok? <==> forall i :: 0 <= i < |qs| ==> Acceptable(qs[i])
    ensures r.Ok? ==> |r.value| == |qs|
    ensures r.Ok? ==> forall i :: 0 <= i < |qs| ==> Ok(r.value[i]) == ValidateQuestion(qs[i], i)
    ensures r.Err? ==> (exists i :: 0 <= i < |qs| && !Acceptable(qs[i])
                          && (forall j :: 0 <= j < i ==> Acceptable(qs[j]))
                          && Err(r.error) == ValidateQuestion(qs[i], i))
  {
    var r := MapUntilError(qs, ValidateQuestion);
    assert forall i :: 0 <= i < |qs| ==> (ValidateQuestion(qs[i], i).Ok? <==> Acceptable(qs[i]));
    r
  }

  /**
   * `parseGeminiResponse` on the parsed reply (`None` when the reply is not
   * JSON): all or nothing. The quiz exists exactly when the reply is an array
   * of eight acceptable questions; it is titled after the topic and owned by
   * the caller.
   */
  function ParseGeneratedQuiz(reply: Option<Json>, userId: ObjectId, topic: Json, now: int)
    : (r: Result<GeneratedQuiz, GenError>)
    ensures r.Ok? <==>
              && reply.Some? && reply.value.JArr? && |reply.value.items| == GeneratedQuestionCount
              && (forall i :: 0 <= i < |reply.value.items| ==> Acceptable(reply.value.items[i]))
              && !StringThrows(topic)
    ensures (&& reply.Some? && reply.value.JArr? && |reply.value.items| == GeneratedQuestionCount
             && (forall i :: 0 <= i < |reply.value.items| ==> Acceptable(reply.value.items[i]))
             && StringThrows(topic)) ==> r == Err(TopicUnprintable)
    ensures r.Ok? ==> && r.value.title == "Generated Quiz: " + ToJsString(topic)
                      && r.value.createdBy == userId
                      && r.value.createdAt == now
                      && |r.value.questions| == GeneratedQuestionCount
                      && forall i :: 0 <= i < |r.value.questions| ==>
                           Ok(r.value.questions[i]) == ValidateQuestion(reply.value.items[i], i)
    ensures reply.None? ==> r == Err(Unparseable)
    ensures reply.Some? && !(reply.value.JArr? && |reply.value.items| == GeneratedQuestionCount) ==>
              r == Err(NotEightQuestions)
  {
    if reply.None? then Err(Unparseable)
    else if !reply.value.JArr? || |reply.value.items| != GeneratedQuestionCount then Err(NotEightQuestions)
    else match ValidateAll(reply.value.items)
      case Err(e) => Err(e)
      case Ok(questions) =>
        if StringThrows(topic) then Err(TopicUnprintable)
        else Ok(GeneratedQuiz("Generated Quiz: " + ToJsString(topic), questions, userId, now))
  }

  /**
   * `POST /generate-quiz` around the remote call: a falsy topic is refused
   * before anything is generated; a topic that cannot be turned into a
   * string makes building the prompt throw; otherwise the reply is validated.
   */
  function GenerateQuiz(topic: Option<Json>, userId: ObjectId, reply: Option<Json>, now: int)
    : (r: Result<GeneratedQuiz, GenError>)
    ensures !Truthy(topic) <==> r == Err(TopicRequired)
    ensures Truthy(topic) && StringThrows(topic.value) ==> r == Err(TopicUnprintable)
    ensures Truthy(topic) && !StringThrows(topic.value) ==> r == ParseGeneratedQuiz(reply, userId, topic.value, now)
  {
    if !Truthy(topic) then Err(TopicRequired)
    else if StringThrows(topic.value) then Err(TopicUnprintable)
    else ParseGeneratedQuiz(reply, userId, topic.value, now)
  }

  /** A single bad question rejects the whole reply, however good the other seven are. */
  lemma OneBadQuestionRejectsAll(reply: seq<Json>, i: nat, userId: ObjectId, topic: Json, now: int)
    requires |reply| == GeneratedQuestionCount && i < |reply| && !Acceptable(reply[i])
    ensures ParseGeneratedQuiz(Some(JArr(reply)), userId, topic, now).Err?
  {
  }

  /** Matching questions, which the stored schema allows, are never accepted from the generator. */
  lemma MatchingRejected(q: Json, i: nat)
    requires Get(q, "type") == Some(JStr("matching"))
    ensures ValidateQuestion(q, i).Err?
  {
  }
}

=== FILE: results.dfy ===
/**
 * Failure-carrying wrappers shared by every module: an optional value (a
 * JavaScript property that may be `undefined`) and a result that is either a
 * value or a typed error (a handler's early `return res.status(…)` or a
 * `throw`).
 */
module Results {

  /** An optional value; `None` plays JavaScript's `undefined`. */
  datatype Option<+T> = None | Some(value: T)

  /** The outcome of a handler: the value it produces, or why it refused. */
  datatype Result<+T, +E> = Ok(value: T) | Err(error: E)
}
